=== FILE: README.md ===
# Web-larek storefront: state store and checkout forms

A Dafny model of the logic core of a single-page storefront. It covers three parts:

- **AppState** (`appstate.dfy`): the application state store. It holds the product catalog, the basket, the order draft, the two form-error maps and the previewed product id. Every mutator is a pure transition. It returns the new `State` and the change events it emits, in order (`Step`). A validator also returns its verdict (`Checked`).
- **OrderContacts** (`ordercontacts.dfy`): the contact step of checkout. It validates the e-mail and phone inputs, reports one error line and enables the submit button only when both are acceptable.
- **OrderPayment** (`orderpayment.dfy`): the payment step of checkout. Two payment buttons, of which at most one is highlighted, plus an address input and a submit button enabled only with an address and a selection.

Supporting modules:

- `types.dfy`: the records (`Product`, `BasketLine`, `Order`, `OrderField`).
- `events.dfy`: events as an appended log of `(name, payload)` pairs, and synchronous delivery of a list of events as a fold.
- `text.dfy`: JavaScript `trim`, the `\s` and `\D` classes and the e-mail regular expression, written as explicit string predicates.
- `form.dfy`: the form base class: its input and submit listeners, the submit button that `valid` enables, and the `valid` accessor that has no getter.
- `checkout.dfy`: the page's wiring of form intents to store mutators, stated as scenarios.

The model follows the code as written, including these behaviours:

- `addBasket` has no duplicate guard. Adding a product twice gives two lines.
- `deleteBasket` removes every line with the id. It emits `basket:changed` even when nothing matched.
- `setOrderField` stores any string as the payment, not only `card`/`cash`. It always emits `order:changed`.
- The default and reset payment is the empty string, not `card`. So after `cleanOrder` the payment step fails on both `payment` and `address`.
- `Form` declares `valid` with a setter only, so reading `this.valid` yields `undefined`. The forms' own submit listeners test `this.valid` and therefore never emit. The one `<form name>:submit` per submit comes from the base class's listener. What keeps an invalid form from submitting is the disabled submit button.
- Every keystroke in a form input emits two events: `order:change` from the input's own listener, then `order.<name>:change` from the base class's listener on the form.

Prices are JavaScript numbers in the source. Here they are `int`, with a missing price counted as 0.

## Model

| member | source | states |
|---|---|---|
| AppState.Init | src/components/AppState.ts:8-20 | a new store has an empty catalog and basket, so count and total are 0; the draft has total 0, no items and empty strings, the payment included; both error maps are empty; there is no preview |
| AppState.SetCatalog | src/components/AppState.ts:26-33 | the catalog read back is exactly the list given; nothing else changes; `catalog:changed` is emitted |
| AppState.GetCatalog | src/components/AppState.ts:31-33 | returns the stored catalog, the list last given to `setCatalog` |
| AppState.GetBasket | src/components/AppState.ts:55-57 | returns the stored basket lines in insertion order |
| AppState.GetNumberBasket | src/components/AppState.ts:59-61 | the count is the length of the basket returned by `getBasket`; a count of 0 means a total of 0 |
| AppState.Reduce | src/components/AppState.ts:64 | the left-to-right `reduce` adding each line's price to an accumulator yields the accumulator plus the sum of the prices |
| AppState.GetTotalBasket | src/components/AppState.ts:63-65 | the total, a `reduce` from 0, equals the sum of the prices of the lines `getBasket` returns |
| AppState.SavePreview | src/components/AppState.ts:35-38 | the preview becomes the product's id; nothing else changes; `preview:changed` carries the product |
| AppState.AddBasket | src/components/AppState.ts:40-48 | exactly one line is appended: the product's id, title, and price or 0; earlier lines and all other state are unchanged; `basket:changed` is emitted |
| AppState.AddBasketCountAndTotal | src/components/AppState.ts:40-65 | adding raises the count by one and the total by the product's price, or by 0 for an unpriced product |
| AppState.AddBasketAllowsDuplicates | src/components/AppState.ts:40-47 | adding a product whose id is already in the basket leaves at least two lines with that id |
| AppState.DeleteBasket | src/components/AppState.ts:50-53 | no line with the id remains; every line with another id remains; the count drops by the number of matching lines; other state is unchanged; `basket:changed` is always emitted |
| AppState.WithoutIdKeepsOrder | src/components/AppState.ts:51 | the remaining lines are a subsequence of the old basket, so their relative order is kept |
| AppState.DeleteBasketCountAndTotal | src/components/AppState.ts:50-65 | after a delete the count drops by the number of removed lines and the total by exactly their prices |
| AppState.WithoutIdTotal | src/components/AppState.ts:51-65 | the basket total splits into the total of the kept lines plus the total of the removed lines |
| AppState.DeleteAbsentId | src/components/AppState.ts:50-53 | deleting an id no line carries leaves the state as it was, yet still emits `basket:changed` |
| AppState.Validate | src/components/AppState.ts:67-88 | the verdict holds iff all four entries are present and non-empty; all errors, contact ones included, are stored in the payment-step map; `formErrors:changed` carries them |
| AppState.PaymentErrors | src/components/AppState.ts:90-97 | the error keys are exactly the empty fields among payment and address, each with its message |
| AppState.ValidatePaymentForm | src/components/AppState.ts:90-101 | the verdict holds iff payment and address are non-empty, which is iff the error map is empty; the map is stored as the payment-step errors only; `formErrors:changed` carries it |
| AppState.ContactErrors | src/components/AppState.ts:103-110 | the error keys are exactly the empty fields among email and phone, each with its message |
| AppState.ValidateContactForm | src/components/AppState.ts:103-114 | the verdict holds iff email and phone are non-empty, which is iff the error map is empty; only the contact-step errors change |
| AppState.SetOrderField | src/components/AppState.ts:116-125 | the field takes the value and no other draft field changes; a payment or address change re-validates the payment step only, an email or phone change the contact step only; `order:changed` with the new draft is emitted last |
| AppState.AnyPaymentAccepted | src/components/AppState.ts:116-124 | any string, not only card or cash, is stored as the payment and `order:changed` follows |
| AppState.PrepareOrder | src/components/AppState.ts:127-133 | the snapshot's total is the basket total; its items are the basket ids in basket order, as many as the basket count; the four string fields are the draft's |
| AppState.PrepareOrderIgnoresStaleDraft | src/components/AppState.ts:127-133 | the snapshot does not depend on the draft's stored total and items |
| AppState.CleanBasketState | src/components/AppState.ts:135-138 | the basket is empty, so count and total are 0; nothing else changes; `basket:changed` is emitted |
| AppState.CleanOrder | src/components/AppState.ts:140-152 | the draft is back to total 0, no items and empty strings; both error maps are empty; catalog, basket and preview are kept; `order:changed` is emitted |
| AppState.CleanIdempotent | src/components/AppState.ts:135-152 | a second reset of the basket or of the draft changes nothing further |
| AppState.CleanOrderFailsPaymentStep | src/components/AppState.ts:140-152 | after a draft reset the payment step fails on both payment and address, because the default payment is empty |
| Text.Trim | src/components/OrderContacts.ts:54-55 | the result is the infix of the input left after removing leading and trailing ECMAScript whitespace; it is empty iff the input is all whitespace |
| Text.TrimIdempotent | src/components/OrderContacts.ts:54-55 | trimming a trimmed string changes nothing |
| Text.DigitsCount | src/components/OrderContacts.ts:67 | the digits kept by `replace(/\D/g, '')` are as many as the input positions holding an ASCII digit |
| Text.DigitsTrim | src/components/OrderContacts.ts:55-67 | trimming the phone never changes its digits |
| Text.IsEmailMatchesPattern | src/components/OrderContacts.ts:59 | the scanning e-mail check accepts exactly the strings matched by `^[^\s@]+@[^\s@]+\.[^\s@]+$` |
| OrderContacts.CheckValid | src/components/OrderContacts.ts:53-77 | valid iff the error line is empty iff the trimmed e-mail matches the pattern and the phone has 10 to 15 digits; a blank phone gives the missing-phone message and a bad phone the invalid-phone message whatever the e-mail; otherwise a blank e-mail gives the missing-email message and a non-matching one the invalid-email message |
| OrderContacts.PhoneErrorOverridesEmail | src/components/OrderContacts.ts:66-76 | when the phone is unacceptable the e-mail has no effect on the error line, and the form is invalid |
| OrderContacts.AcceptsExample | src/components/OrderContacts.ts:53-77 | a space-padded well-formed e-mail with an 11-digit phone behind a `+` is accepted |
| OrderContacts.SetEmail | src/components/OrderContacts.ts:43-46 | the e-mail input takes the value and validity is recomputed against the current phone |
| OrderContacts.SetPhone | src/components/OrderContacts.ts:48-51 | the phone input takes the value and validity is recomputed against the current e-mail |
| OrderContacts.InputEmail | src/components/OrderContacts.ts:19-25 | typing stores the raw value and re-checks; it emits `order:change` for `email` with the raw value, then, from the base class's form listener, `order.email:change` with the same field and value |
| OrderContacts.InputPhone | src/components/OrderContacts.ts:27-33 | typing stores the raw value and re-checks; it emits `order:change` for `phone` with the raw value, then, from the base class's form listener, `order.phone:change` with the same field and value |
| Form.BaseInput | src/components/Form.ts:19-22 | the base class's input listener emits one event, `order.<input name>:change`, carrying the input's name and value |
| Form.BaseSubmit | src/components/Form.ts:24-27 | the base class's submit listener emits `<form name>:submit` exactly once, whatever the form's state |
| Form.ClickSubmit | src/components/Form.ts:24-32 | a click on a disabled submit button emits nothing; on an enabled one the base listener's event comes first and the form's own listener's events follow, so `<form name>:submit` is emitted once more than the form's own listener emits it |
| OrderContacts.OwnSubmit | src/components/OrderContacts.ts:35-40 | the form's own submit listener emits nothing, because `this.valid` reads as undefined |
| OrderContacts.Submit | src/components/OrderContacts.ts:35-40 | a submit click emits exactly one event, `contacts:submit`, when the button is enabled, and nothing while it is disabled |
| OrderContacts.CleanFieldValues | src/components/OrderContacts.ts:79-83 | both inputs are empty, the form is invalid and the error is the missing-phone message |
| OrderPayment.ButtonName | src/components/OrderPayment.ts:16-21 | a button's name is `card` or `cash` |
| OrderPayment.TogglePayment | src/components/OrderPayment.ts:67-70 | exactly the given button is active and the other is not; address and validity are untouched |
| OrderPayment.ResetPayment | src/components/OrderPayment.ts:72-75 | neither button is active |
| OrderPayment.CheckValid | src/components/OrderPayment.ts:77-83 | valid iff the address is not all whitespace and some button is active; nothing else changes |
| OrderPayment.SetAddress | src/components/OrderPayment.ts:62-65 | the address takes the value and validity is recomputed with the current selection |
| OrderPayment.InputAddress | src/components/OrderPayment.ts:23-29 | typing stores the raw value and re-checks; it emits `order:change` for `address` with the raw value, then, from the base class's form listener, `order.address:change` with the same field and value |
| OrderPayment.ClickPayment | src/components/OrderPayment.ts:31-51 | the clicked button becomes the only selection; `order:change` for `payment` carries its name; the form is then valid iff the address is not blank |
| OrderPayment.OwnSubmit | src/components/OrderPayment.ts:54-59 | the form's own submit listener emits nothing, because `this.valid` reads as undefined |
| OrderPayment.Submit | src/components/OrderPayment.ts:54-59 | a submit click emits exactly one event, `order:submit`, when the button is enabled, and nothing while it is disabled |
| OrderPayment.CleanFieldValues | src/components/OrderPayment.ts:85-89 | the address is empty, no button is selected and the form is invalid |
| OrderPayment.RunKeepsConsistent | src/components/OrderPayment.ts:23-89 | any sequence of typing, clicks and cleaning keeps at most one button active and validity in step with address and selection, so submit fires only with a non-blank address and a chosen payment |
| Checkout.OnOrderChange | src/index.ts:98-100 | the reported field takes the value and the other three draft fields keep theirs; basket and catalog are unchanged |
| Checkout.OnOrderSubmit | src/index.ts:102-111 | the contact step opens iff the draft's payment and address are non-empty |
| Checkout.OnContactsSubmit | src/index.ts:113-115 | the snapshot is posted iff the draft's email and phone are non-empty, and it is the prepared order |
| Checkout.OnSuccessClose | src/index.ts:135-139 | the `success:close` handler leaves the initial state except for the catalog and preview, and the store emits `basket:changed` then `order:changed` |
| Checkout.OnSuccessButton | src/index.ts:117-123 | clicking the success message's button runs the `success:close` reset through `modal.close()`, then resets again: the final state is the one `success:close` gives, and the store's two events are emitted twice |
| Checkout.FilledDraftIsPosted | src/index.ts:98-115 | four non-empty field changes pass both steps, and the posted snapshot carries those values with the basket total and one item per line |
| Checkout.PaymentViewImpliesStore | src/index.ts:98-111 | a clicked button and a non-blank address, once stored, pass the payment step |
| Checkout.StoreAcceptsBlankAddress | src/index.ts:98-111 | the store accepts an address of one space that the payment form rejects |
| Checkout.ContactsViewImpliesStore | src/index.ts:98-115 | inputs the contact form accepts, once stored, pass the contact step |
| Checkout.Handle | src/index.ts:98-115 | one event reaching the page: `order:change` naming a draft field stores the value in that field; `order:submit` runs the payment step's validation and posts nothing; `contacts:submit` runs the contact step's validation and posts the prepared order iff email and phone are non-empty; any other event, or an `order:change` naming no draft field, changes nothing |
| Checkout.Dispatch | src/index.ts:98-115 | a one-event list is handled as `Handle` handles it; at most one post per `contacts:submit`; a list with none of the three handled names leaves the store unchanged and posts nothing |
| Checkout.DispatchIsFold | src/index.ts:98-115 | dispatching a list is handing its events to `Handle` one at a time, each from the state the previous left |
| Checkout.DispatchAppend | src/index.ts:98-115 | dispatching `a + b` is dispatching `a`, then `b` from the state `a` left, with the posts concatenated in that order; with the one-event case, this fixes `Dispatch` on every list |
| Checkout.InputEventsReachStore | src/index.ts:98-100 | an input's `order:change` followed by the base class's `order.<name>:change` stores the value once and posts nothing |
| Checkout.TypingContactsReachesStore | src/index.ts:98-100 | typing an e-mail or phone updates exactly that draft field in the store, as the `order:change` handler does |
| Checkout.PaymentInputReachesStore | src/index.ts:98-100 | typing an address or clicking a payment button updates that draft field in the store, the payment taking the button's name |
| Checkout.ContactsSubmitPosts | src/index.ts:113-115 | a submit click on the contact form over a complete draft posts exactly one order when the button is enabled and none while it is disabled |
| Checkout.TwoProductScenario | src/components/AppState.ts:40-65 | adding a product priced 100 and an unpriced one gives lines priced 100 and 0, total 100 and count 2 |

## Left out

- The event bus and the `Model` base class are not part of this model. Emission is an appended event log, and dispatch order and handler failures are not modelled.
- The catalog and order network calls in `AppApi` and `base/api`, and the CDN image prefixing, are asynchronous I/O.
- DOM rendering in `Card`, `Basket`, `Modal`, `Page`, `Success` and `Form.render`: templates, text formatting, class toggling and `parseFloat` over rendered text.
- Prices are integers. JavaScript floating-point addition, `NaN` and a price of `0` being falsy are not modelled. A `0` price gives 0 either way.
- `FormData` is modelled as a map from entry name to string. File-valued entries and repeated entry names are not modelled; `Object.fromEntries` keeps the last one anyway.
- Error maps are modelled as maps. The insertion order of their keys is not modelled; the page joins the values with `; ` for display.
- The emitted draft in `order:changed` is a snapshot. The source passes a reference that later mutations would also change.
- The `if (this._buttonOnline)` guards around the click listeners are not modelled. A missing button would make `checkValid` fail on `null` anyway.
- The payment form's initial state is taken to be what the page renders: no address, no selection, invalid.
- A submit is modelled as a click on the submit button, which the browser ignores while the button is disabled. Other ways to raise `submit`, such as a script calling `requestSubmit`, are not modelled.
- The form names `order` and `contacts` come from the page's templates, which are not part of this model. They are taken from the events the page listens for.
- `ensureElement` failing on a missing submit button or error element is not modelled.
- `order:change` events whose field is not one of `email`, `phone`, `address` and `payment` are skipped. The forms never emit them. The source would add such a field to the draft, and the posted order would spread it.
- Whether the modal's content holds the `.order-success` element that makes `close()` raise `success:close` is decided by a template that is not part of this model. The success button is taken to render it, as its `.order-success__*` selectors require. The modal's own `modal:open` and `modal:close` events are not modelled.

=== FILE: appstate.dfy ===
/** The application state store: catalog, basket, order draft, the two form-error
    maps and the previewed product id. Every mutator is a pure transition that
    returns the new state together with the change events it emits. */
module AppState {
  import opened Types
  import opened Events

  /** Field name to human-readable message; an empty map means the form is valid. */
  type FormErrors = map<string, string>

  datatype State = State(
    catalog: seq<Product>,
    basket: seq<BasketLine>,
    order: Order,
    orderFormErrors: FormErrors,
    contactFormErrors: FormErrors,
    preview: Option<string>)

  /** The outcome of a mutator: the new state and the events emitted, in order. */
  datatype Step = Step(state: State, events: seq<Event>)

  /** The outcome of a validator: its verdict, the new state and the events emitted. */
  datatype Checked = Checked(ok: bool, state: State, events: seq<Event>)

  /** The draft a fresh store starts with and `CleanOrder` restores. */
  const EmptyOrder := Order(0, [], "", "", "", "")

  /** The state right after construction: nothing in the catalog or basket,
      the default draft, no errors and no preview. */
  function Init(): (r: State)
    ensures GetCatalog(r) == [] && GetNumberBasket(r) == 0 && GetTotalBasket(r) == 0
    ensures r.order == EmptyOrder && FieldValue(r.order, Payment) == ""
    ensures r.orderFormErrors == map[] && r.contactFormErrors == map[]
    ensures r.preview == None
  {
    State([], [], EmptyOrder, map[], map[], None)
  }

  // ---------------------------------------------------------------- catalog

  function SetCatalog(s: State, items: seq<Product>): (r: Step)
    ensures GetCatalog(r.state) == items
    ensures r.state.(catalog := s.catalog) == s
    ensures r.events == [Event(CatalogChanged, NoPayload)]
  {
    Step(s.(catalog := items), [Event(CatalogChanged, NoPayload)])
  }

  /** Returns the stored catalog itself. */
  function GetCatalog(s: State): (c: seq<Product>)
    ensures c == s.catalog
  {
    s.catalog
  }

  function SavePreview(s: State, item: Product): (r: Step)
    ensures r.state.preview == Some(item.id)
    ensures r.state.(preview := s.preview) == s
    ensures r.events == [Event(PreviewChanged, ProductPayload(item))]
  {
    Step(s.(preview := Some(item.id)), [Event(PreviewChanged, ProductPayload(item))])
  }

  // ----------------------------------------------------------------- basket

  /** The basket line derived from a product: its id and title, and its price or 0. */
  function LineOf(item: Product): BasketLine
  {
    BasketLine(item.id, item.title, PriceOrZero(item.price))
  }

  /** Appends the product's line; there is no check for a line with the same id. */
  function AddBasket(s: State, item: Product): (r: Step)
    ensures |r.state.basket| == |s.basket| + 1
    ensures r.state.basket[..|s.basket|] == s.basket
    ensures r.state.basket[|s.basket|] == BasketLine(item.id, item.title, PriceOrZero(item.price))
    ensures r.state.(basket := s.basket) == s
    ensures r.events == [Event(BasketChanged, NoPayload)]
  {
    Step(s.(basket := s.basket + [LineOf(item)]), [Event(BasketChanged, NoPayload)])
  }

  /** The lines of `b` whose id differs from `id`, in their original order. */
  function WithoutId(b: seq<BasketLine>, id: string): (r: seq<BasketLine>)
    ensures |r| + |WithId(b, id)| == |b|
  {
    if |b| == 0 then []
    else (if b[0].id == id then [] else [b[0]]) + WithoutId(b[1..], id)
  }

  /** The lines of `b` whose id is `id`, in their original order. */
  function WithId(b: seq<BasketLine>, id: string): (r: seq<BasketLine>)
    ensures forall i :: 0 <= i < |r| ==> r[i].id == id
  {
    if |b| == 0 then []
    else (if b[0].id == id then [b[0]] else []) + WithId(b[1..], id)
  }

  /** Removes every line carrying `id`; emits `basket:changed` even when none matched. */
  function DeleteBasket(s: State, id: string): (r: Step)
    ensures forall i :: 0 <= i < |r.state.basket| ==> r.state.basket[i].id != id
    ensures forall l :: l in s.basket && l.id != id ==> l in r.state.basket
    ensures |r.state.basket| == |s.basket| - |WithId(s.basket, id)|
    ensures r.state.(basket := s.basket) == s
    ensures r.events == [Event(BasketChanged, NoPayload)]
  {
    var b := WithoutId(s.basket, id);
    WithoutIdMembers(s.basket, id);
    assert forall i :: 0 <= i < |b| ==> b[i] in b;
    Step(s.(basket := b), [Event(BasketChanged, NoPayload)])
  }

  /** Returns the stored basket itself, lines in insertion order. */
  function GetBasket(s: State): (b: seq<BasketLine>)
    ensures b == s.basket
  {
    s.basket
  }

  /** The number of basket lines; an empty basket has total 0. */
  function GetNumberBasket(s: State): (n: nat)
    ensures n == |GetBasket(s)|
    ensures n == 0 ==> GetTotalBasket(s) == 0
  {
    |s.basket|
  }

  /** The sum of the line prices. */
  function Total(b: seq<BasketLine>): int
  {
    if |b| == 0 then 0 else Total(b[..|b| - 1]) + b[|b| - 1].price
  }

  /** `reduce((total, item) => total + item.price, acc)`: adds the prices to the
      accumulator from the first line to the last. */
  function Reduce(acc: int, b: seq<BasketLine>): (r: int)
    ensures r == acc + Total(b)
    decreases |b|
  {
    if |b| == 0 then acc
    else
      assert b == [b[0]] + b[1..];
      TotalCons(b[0], b[1..]);
      Reduce(acc + b[0].price, b[1..])
  }

  /** The basket total: the reduction from 0 is the sum of the line prices. */
  function GetTotalBasket(s: State): (t: int)
    ensures t == Total(GetBasket(s))
  {
    Reduce(0, s.basket)
  }

  /** A line survives a delete exactly when it was there and carries another id. */
  lemma {:induction false} WithoutIdMembers(b: seq<BasketLine>, id: string)
    ensures forall l :: l in WithoutId(b, id) <==> l in b && l.id != id
  {
    if |b| > 0 {
      WithoutIdMembers(b[1..], id);
      assert b == [b[0]] + b[1..];
    }
  }

  /** `a` is `b` with some elements dropped and the rest kept in order. */
  ghost predicate Subsequence<T>(a: seq<T>, b: seq<T>)
    decreases |b|
  {
    |a| == 0 || (|b| > 0 && (Subsequence(a, b[1..]) || (a[0] == b[0] && Subsequence(a[1..], b[1..]))))
  }

  lemma {:induction false} TotalCons(l: BasketLine, b: seq<BasketLine>)
    ensures Total([l] + b) == l.price + Total(b)
  {
    if |b| > 0 {
      var b' := b[..|b| - 1];
      assert ([l] + b)[..|[l] + b| - 1] == [l] + b';
      TotalCons(l, b');
    }
  }

  /** Deleting keeps the other lines in their relative order. */
  lemma {:induction false} WithoutIdKeepsOrder(b: seq<BasketLine>, id: string)
    ensures Subsequence(WithoutId(b, id), b)
  {
    if |b| > 0 {
      WithoutIdKeepsOrder(b[1..], id);
      var rest := WithoutId(b[1..], id);
      if b[0].id != id {
        assert WithoutId(b, id) == [b[0]] + rest;
        assert ([b[0]] + rest)[1..] == rest;
      } else {
        assert WithoutId(b, id) == rest;
      }
    }
  }

  /** Deleting a line id splits the total into what stays and what was removed. */
  lemma {:induction false} WithoutIdTotal(b: seq<BasketLine>, id: string)
    ensures Total(b) == Total(WithoutId(b, id)) + Total(WithId(b, id))
  {
    if |b| > 0 {
      var head, tail := b[0], b[1..];
      var keep, drop := WithoutId(tail, id), WithId(tail, id);
      WithoutIdTotal(tail, id);
      assert Total(b) == head.price + Total(tail) by {
        assert b == [head] + tail;
        TotalCons(head, tail);
      }
      if head.id == id {
        assert Total(WithId(b, id)) == head.price + Total(drop) by {
          assert WithId(b, id) == [head] + drop;
          TotalCons(head, drop);
        }
        assert WithoutId(b, id) == keep;
      } else {
        assert Total(WithoutId(b, id)) == head.price + Total(keep) by {
          assert WithoutId(b, id) == [head] + keep;
          TotalCons(head, keep);
        }
        assert WithId(b, id) == drop;
      }
    }
  }

  /** Deleting an id that no line carries leaves the basket as it was. */
  lemma {:induction false} WithoutAbsentId(b: seq<BasketLine>, id: string)
    requires forall i :: 0 <= i < |b| ==> b[i].id != id
    ensures WithoutId(b, id) == b
  {
    if |b| > 0 {
      WithoutAbsentId(b[1..], id);
      assert b == [b[0]] + b[1..];
    }
  }

  /** Adding a product grows the count by one and the total by its price or 0. */
  lemma AddBasketCountAndTotal(s: State, item: Product)
    ensures GetNumberBasket(AddBasket(s, item).state) == GetNumberBasket(s) + 1
    ensures GetTotalBasket(AddBasket(s, item).state) == GetTotalBasket(s) + PriceOrZero(item.price)
  {
    var b := AddBasket(s, item).state.basket;
    assert b[..|b| - 1] == s.basket;
  }

  /** Adding a product whose id is already in the basket gives two lines with that id. */
  lemma AddBasketAllowsDuplicates(s: State, item: Product, i: nat)
    requires i < |s.basket| && s.basket[i].id == item.id
    ensures var b := AddBasket(s, item).state.basket;
      |WithId(b, item.id)| >= 2
  {
    var b := AddBasket(s, item).state.basket;
    var n := |s.basket|;
    assert b[n] == LineOf(item) && b[i] == s.basket[i];
    WithIdCountsPositions(b, item.id, i, n);
  }

  lemma {:induction false} WithIdCountsPositions(b: seq<BasketLine>, id: string, i: nat, j: nat)
    requires i < j < |b| && b[i].id == id && b[j].id == id
    ensures |WithId(b, id)| >= 2
  {
    if i == 0 {
      assert WithId(b, id) == [b[0]] + WithId(b[1..], id);
      WithIdFindsPosition(b[1..], id, j - 1);
    } else {
      WithIdCountsPositions(b[1..], id, i - 1, j - 1);
    }
  }

  lemma {:induction false} WithIdFindsPosition(b: seq<BasketLine>, id: string, j: nat)
    requires j < |b| && b[j].id == id
    ensures |WithId(b, id)| >= 1
  {
    if j > 0 {
      WithIdFindsPosition(b[1..], id, j - 1);
    }
  }

  /** After a delete the count drops by the number of removed lines and the total
      by their prices; the remaining lines are the others, in order. */
  lemma DeleteBasketCountAndTotal(s: State, id: string)
    ensures var s' := DeleteBasket(s, id).state;
      && GetNumberBasket(s') == GetNumberBasket(s) - |WithId(s.basket, id)|
      && GetTotalBasket(s') == GetTotalBasket(s) - Total(WithId(s.basket, id))
      && Subsequence(GetBasket(s'), GetBasket(s))
  {
    WithoutIdTotal(s.basket, id);
    WithoutIdKeepsOrder(s.basket, id);
  }

  /** Deleting an id that is not in the basket changes no line but still emits. */
  lemma DeleteAbsentId(s: State, id: string)
    requires forall i :: 0 <= i < |s.basket| ==> s.basket[i].id != id
    ensures DeleteBasket(s, id).state == s
    ensures DeleteBasket(s, id).events == [Event(BasketChanged, NoPayload)]
  {
    WithoutAbsentId(s.basket, id);
  }

  // ------------------------------------------------------------- validation

  /** Records `msg` under `key` when `value` is empty (falsy); otherwise leaves `e` alone. */
  function Require(e: FormErrors, key: string, value: string, msg: string): (r: FormErrors)
    ensures value == "" ==> r == e[key := msg]
    ensures value != "" ==> r == e
  {
    if value == "" then e[key := msg] else e
  }

  /** The payment-step errors of a draft. */
  function PaymentErrors(o: Order): (e: FormErrors)
    ensures e.Keys == (if o.payment == "" then {"payment"} else {})
                    + (if o.address == "" then {"address"} else {})
    ensures "payment" in e ==> e["payment"] == MsgNoPayment
    ensures "address" in e ==> e["address"] == MsgNoAddress
  {
    Require(Require(map[], "payment", o.payment, MsgNoPayment), "address", o.address, MsgNoAddress)
  }

  /** The contact-step errors of a draft. */
  function ContactErrors(o: Order): (e: FormErrors)
    ensures e.Keys == (if o.email == "" then {"email"} else {})
                    + (if o.phone == "" then {"phone"} else {})
    ensures "email" in e ==> e["email"] == MsgNoEmail
    ensures "phone" in e ==> e["phone"] == MsgNoPhone
  {
    Require(Require(map[], "email", o.email, MsgNoEmail), "phone", o.phone, MsgNoPhone)
  }

  /** A form-data entry as `Object.fromEntries` exposes it: a missing entry reads as empty. */
  function Entry(formData: map<string, string>, key: string): string
  {
    if key in formData then formData[key] else ""
  }

  /** The draft fields as read from submitted form data. */
  function DraftOf(formData: map<string, string>): Order
  {
    Order(0, [], Entry(formData, "email"), Entry(formData, "phone"),
          Entry(formData, "address"), Entry(formData, "payment"))
  }

  /** Validates all four fields of submitted form data at once; the errors go to
      `orderFormErrors`, whichever step they belong to. */
  function Validate(s: State, formData: map<string, string>): (r: Checked)
    ensures r.ok <==> && Entry(formData, "payment") != "" && Entry(formData, "address") != ""
                      && Entry(formData, "email") != "" && Entry(formData, "phone") != ""
    ensures r.state.orderFormErrors == PaymentErrors(DraftOf(formData)) + ContactErrors(DraftOf(formData))
    ensures r.state.(orderFormErrors := s.orderFormErrors) == s
    ensures r.events == [Event(FormErrorsChanged, ErrorsPayload(r.state.orderFormErrors))]
  {
    var o := DraftOf(formData);
    var e := PaymentErrors(o) + ContactErrors(o);
    assert e.Keys == PaymentErrors(o).Keys + ContactErrors(o).Keys;
    assert |e| == 0 <==> e.Keys == {};
    Checked(|e| == 0, s.(orderFormErrors := e), [Event(FormErrorsChanged, ErrorsPayload(e))])
  }

  function ValidatePaymentForm(s: State): (r: Checked)
    ensures r.ok <==> s.order.payment != "" && s.order.address != ""
    ensures r.ok <==> r.state.orderFormErrors == map[]
    ensures r.state.orderFormErrors == PaymentErrors(s.order)
    ensures r.state.(orderFormErrors := s.orderFormErrors) == s
    ensures r.events == [Event(FormErrorsChanged, ErrorsPayload(r.state.orderFormErrors))]
  {
    var e := PaymentErrors(s.order);
    assert |e| == 0 <==> e.Keys == {};
    Checked(|e| == 0, s.(orderFormErrors := e), [Event(FormErrorsChanged, ErrorsPayload(e))])
  }

  function ValidateContactForm(s: State): (r: Checked)
    ensures r.ok <==> s.order.email != "" && s.order.phone != ""
    ensures r.ok <==> r.state.contactFormErrors == map[]
    ensures r.state.contactFormErrors == ContactErrors(s.order)
    ensures r.state.(contactFormErrors := s.contactFormErrors) == s
    ensures r.events == [Event(FormErrorsChanged, ErrorsPayload(r.state.contactFormErrors))]
  {
    var e := ContactErrors(s.order);
    assert |e| == 0 <==> e.Keys == {};
    Checked(|e| == 0, s.(contactFormErrors := e), [Event(FormErrorsChanged, ErrorsPayload(e))])
  }

  // ------------------------------------------------------------------ order

  /** Stores any string in the named field, re-validates the step the field belongs
      to, and finally emits `order:changed` with the whole draft. */
  function SetOrderField(s: State, f: OrderField, v: string): (r: Step)
    ensures FieldValue(r.state.order, f) == v
    ensures forall g :: g != f ==> FieldValue(r.state.order, g) == FieldValue(s.order, g)
    ensures r.state.order.total == s.order.total && r.state.order.items == s.order.items
    ensures r.state.catalog == s.catalog && r.state.basket == s.basket && r.state.preview == s.preview
    ensures (f == Payment || f == Address) ==>
              && r.state.orderFormErrors == PaymentErrors(r.state.order)
              && r.state.contactFormErrors == s.contactFormErrors
    ensures (f == Email || f == Phone) ==>
              && r.state.contactFormErrors == ContactErrors(r.state.order)
              && r.state.orderFormErrors == s.orderFormErrors
    ensures |r.events| == 2
    ensures r.events[0].name == FormErrorsChanged
    ensures r.events[1] == Event(OrderChanged, OrderPayload(r.state.order))
  {
    var s1 := s.(order := WithField(s.order, f, v));
    var c := if f == Payment || f == Address then ValidatePaymentForm(s1) else ValidateContactForm(s1);
    Step(c.state, c.events + [Event(OrderChanged, OrderPayload(s1.order))])
  }

  /** The submission snapshot: the draft with `total` and `items` recomputed from the basket. */
  function PrepareOrder(s: State): (o: Order)
    ensures o.total == GetTotalBasket(s)
    ensures |o.items| == GetNumberBasket(s)
    ensures forall i :: 0 <= i < |o.items| ==> o.items[i] == s.basket[i].id
    ensures o.email == s.order.email && o.phone == s.order.phone
    ensures o.address == s.order.address && o.payment == s.order.payment
  {
    s.order.(total := Total(s.basket), items := seq(|s.basket|, i requires 0 <= i < |s.basket| => s.basket[i].id))
  }

  /** The snapshot does not depend on the draft's own, possibly stale, total and items. */
  lemma PrepareOrderIgnoresStaleDraft(s: State, total: int, items: seq<string>)
    ensures PrepareOrder(s.(order := s.order.(total := total, items := items))) == PrepareOrder(s)
  {
  }

  // ------------------------------------------------------------------ reset

  function CleanBasketState(s: State): (r: Step)
    ensures r.state.basket == []
    ensures GetNumberBasket(r.state) == 0 && GetTotalBasket(r.state) == 0
    ensures r.state.(basket := s.basket) == s
    ensures r.events == [Event(BasketChanged, NoPayload)]
  {
    Step(s.(basket := []), [Event(BasketChanged, NoPayload)])
  }

  function CleanOrder(s: State): (r: Step)
    ensures r.state.order == Order(0, [], "", "", "", "")
    ensures r.state.orderFormErrors == map[] && r.state.contactFormErrors == map[]
    ensures r.state.catalog == s.catalog && r.state.basket == s.basket && r.state.preview == s.preview
    ensures r.events == [Event(OrderChanged, NoPayload)]
  {
    Step(s.(order := EmptyOrder, orderFormErrors := map[], contactFormErrors := map[]),
         [Event(OrderChanged, NoPayload)])
  }

  /** Both resets are idempotent: a second call changes nothing further. */
  lemma CleanIdempotent(s: State)
    ensures CleanBasketState(CleanBasketState(s).state).state == CleanBasketState(s).state
    ensures CleanOrder(CleanOrder(s).state).state == CleanOrder(s).state
  {
  }

  /** After a reset the payment step fails on both fields: the default payment is empty. */
  lemma CleanOrderFailsPaymentStep(s: State)
    ensures var c := ValidatePaymentForm(CleanOrder(s).state);
      !c.ok && c.state.orderFormErrors.Keys == {"payment", "address"}
  {
  }

  /** Any string, not only "card" or "cash", is stored as the payment method. */
  lemma AnyPaymentAccepted(s: State, v: string)
    ensures SetOrderField(s, Payment, v).state.order.payment == v
    ensures var r := SetOrderField(s, Payment, v);
      r.events[|r.events| - 1] == Event(OrderChanged, OrderPayload(r.state.order))
  {
  }
}

=== FILE: checkout.dfy ===
/** The checkout flow as the page wires it: form intents drive store mutators,
    the payment step gates the contact step, the contact step gates the order
    post, and closing the success dialog resets basket and draft. */
module Checkout {
  import opened Types
  import opened Events
  import opened Text
  import opened AppState
  import OrderContacts
  import OrderPayment

  /** `order:change` reaching the store: the reported field is stored. */
  function OnOrderChange(s: State, f: OrderField, v: string): (r: Step)
    ensures FieldValue(r.state.order, f) == v
    ensures forall g :: g != f ==> FieldValue(r.state.order, g) == FieldValue(s.order, g)
    ensures r.state.basket == s.basket && r.state.catalog == s.catalog
  {
    SetOrderField(s, f, v)
  }

  /** `order:submit`: the contact step opens only when the payment step validates. */
  function OnOrderSubmit(s: State): (r: Checked)
    ensures r.ok <==> s.order.payment != "" && s.order.address != ""
  {
    ValidatePaymentForm(s)
  }

  /** `contacts:submit`: the snapshot is posted only when the contact step validates. */
  function OnContactsSubmit(s: State): (r: (Option<Order>, Checked))
    ensures r.0.Some? <==> s.order.email != "" && s.order.phone != ""
    ensures r.0.Some? ==> r.0.value == PrepareOrder(s)
  {
    var c := ValidateContactForm(s);
    (if c.ok then Some(PrepareOrder(c.state)) else None, c)
  }

  /** The `success:close` handler: the basket, then the draft, are reset. The
      modal raises `success:close` whenever it closes over the success message. */
  function OnSuccessClose(s: State): (r: Step)
    ensures r.state == Init().(catalog := s.catalog, preview := s.preview)
    ensures r.events == [Event(BasketChanged, NoPayload), Event(OrderChanged, NoPayload)]
  {
    var b := CleanBasketState(s);
    var o := CleanOrder(b.state);
    Step(o.state, b.events + o.events)
  }

  /** Clicking the success message's button. Its handler first closes the modal,
      which raises `success:close` and so runs the reset above; then it resets
      the basket and the draft once more. The final state is the one closing
      gives, but the store's two change events are emitted twice. */
  function OnSuccessButton(s: State): (r: Step)
    ensures r.state == OnSuccessClose(s).state
    ensures r.events == OnSuccessClose(s).events + OnSuccessClose(s).events
  {
    var h := OnSuccessClose(s);
    var b := CleanBasketState(h.state);
    var o := CleanOrder(b.state);
    CleanIdempotent(s);
    Step(o.state, h.events + b.events + o.events)
  }

  /** Filling all four fields with non-empty values passes both steps, and the
      posted snapshot carries those values with the basket's total and ids. */
  lemma FilledDraftIsPosted(s: State, payment: string, address: string, email: string, phone: string)
    requires payment != "" && address != "" && email != "" && phone != ""
    ensures var s4 := OnOrderChange(OnOrderChange(OnOrderChange(OnOrderChange(s,
                        Payment, payment).state, Address, address).state,
                        Email, email).state, Phone, phone).state;
      && OnOrderSubmit(s4).ok
      && var posted := OnContactsSubmit(s4).0;
      && posted.Some?
      && posted.value.total == Total(s.basket)
      && |posted.value.items| == |s.basket|
      && posted.value.payment == payment && posted.value.address == address
      && posted.value.email == email && posted.value.phone == phone
  {
    var s1 := OnOrderChange(s, Payment, payment).state;
    var s2 := OnOrderChange(s1, Address, address).state;
    var s3 := OnOrderChange(s2, Email, email).state;
    var s4 := OnOrderChange(s3, Phone, phone).state;
    assert FieldValue(s2.order, Payment) == payment;
    assert FieldValue(s3.order, Payment) == payment && FieldValue(s3.order, Address) == address;
    assert FieldValue(s4.order, Payment) == payment && FieldValue(s4.order, Address) == address;
    assert FieldValue(s4.order, Email) == email;
  }

  /** What the payment form lets through, the store accepts: a clicked button
      reports a non-empty name and a non-blank address is non-empty. */
  lemma PaymentViewImpliesStore(s: State, b: OrderPayment.Button, v: string)
    requires !AllSpace(v)
    ensures var s2 := OnOrderChange(OnOrderChange(s, Payment, OrderPayment.ButtonName(b)).state, Address, v).state;
      OnOrderSubmit(s2).ok
  {
    var s1 := OnOrderChange(s, Payment, OrderPayment.ButtonName(b)).state;
    assert FieldValue(s1.order, Payment) != "";
  }

  /** The converse fails: the store accepts a blank address the form rejects. */
  lemma StoreAcceptsBlankAddress(s: State)
    requires s.order.payment != ""
    ensures OnOrderSubmit(OnOrderChange(s, Address, " ").state).ok
    ensures !OrderPayment.SetAddress(OrderPayment.PaymentForm("", true, false, false), " ").valid
  {
    var s1 := OnOrderChange(s, Address, " ").state;
    assert FieldValue(s1.order, Payment) == s.order.payment;
  }

  /** What the contact form lets through, the store accepts. */
  lemma ContactsViewImpliesStore(s: State, f: OrderContacts.ContactsForm)
    requires OrderContacts.CheckValid(f).valid
    ensures var s2 := OnOrderChange(OnOrderChange(s, Email, f.email).state, Phone, f.phone).state;
      OnContactsSubmit(s2).0.Some?
  {
    assert f.email != "";
    assert |Digits(f.phone)| >= 10;
    var s1 := OnOrderChange(s, Email, f.email).state;
    assert FieldValue(s1.order, Email) == f.email;
  }

  /** The order scenario: a priced and an unpriced product added in turn give
      two lines, the unpriced one at 0, a total of 100 and a count of 2. */
  lemma TwoProductScenario()
    ensures var a := Product("a", "", "", "A", "", Some(100));
      var b := Product("b", "", "", "B", "", None);
      var s := AddBasket(AddBasket(SetCatalog(Init(), [a, b]).state, a).state, b).state;
      && s.basket == [BasketLine("a", "A", 100), BasketLine("b", "B", 0)]
      && GetTotalBasket(s) == 100 && GetNumberBasket(s) == 2
  {
    var a := Product("a", "", "", "A", "", Some(100));
    var b := Product("b", "", "", "B", "", None);
    var s0 := SetCatalog(Init(), [a, b]).state;
    assert GetNumberBasket(s0) == 0;
    var s1 := AddBasket(s0, a).state;
    AddBasketCountAndTotal(s0, a);
    assert GetTotalBasket(s1) == 100 && GetNumberBasket(s1) == 1;
    var s2 := AddBasket(s1, b).state;
    AddBasketCountAndTotal(s1, b);
    assert s2.basket == s1.basket + [BasketLine("b", "B", 0)];
  }

  /** One form event reaching the page's handler for it: the store's new state
      and the snapshots posted. The page handles `order:change`,
      `order:submit` and `contacts:submit`; the forms' other event,
      `order.<name>:change`, has no handler. */
  function Handle(s: State, e: Event): (r: (State, seq<Order>))
    // An `order:change` naming a draft field stores its value there.
    ensures (e.name == OrderChange && e.payload.FieldChange? && FieldOf(e.payload.field).Some?) ==>
      var f := FieldOf(e.payload.field).value;
      && r == (OnOrderChange(s, f, e.payload.value).state, [])
      && FieldValue(r.0.order, f) == e.payload.value
    // An `order:submit` runs the payment step's validation and posts nothing.
    ensures e.name == OrderSubmit ==> r == (ValidatePaymentForm(s).state, [])
    // A `contacts:submit` runs the contact step's validation and posts the
    // prepared order iff that passes.
    ensures e.name == ContactsSubmit ==>
      && r.0 == ValidateContactForm(s).state
      && r.1 == (if s.order.email != "" && s.order.phone != "" then [PrepareOrder(s)] else [])
    // Only a `contacts:submit` can post, and at most once.
    ensures |r.1| <= (if e.name == ContactsSubmit then 1 else 0)
    // Any other event, or an `order:change` naming no draft field, changes nothing.
    ensures (e.name != OrderChange && e.name != OrderSubmit && e.name != ContactsSubmit) ==> r == (s, [])
    ensures (e.name == OrderChange && !(e.payload.FieldChange? && FieldOf(e.payload.field).Some?)) ==> r == (s, [])
  {
    if e.name == OrderChange then
      var p := e.payload;
      if p.FieldChange? && FieldOf(p.field).Some?
      then (OnOrderChange(s, FieldOf(p.field).value, p.value).state, [])
      else (s, [])
    else if e.name == ContactsSubmit then
      var (posted, c) := OnContactsSubmit(s);
      (c.state, if posted.Some? then [posted.value] else [])
    else if e.name == OrderSubmit then
      (OnOrderSubmit(s).state, [])
    else (s, [])
  }

  /** Delivers the checkout forms' events to their handlers one after another
      and collects the snapshots posted, in posting order. */
  function Dispatch(s: State, evs: seq<Event>): (r: (State, seq<Order>))
    ensures |evs| == 1 ==> r == Handle(s, evs[0])
    ensures |r.1| <= CountNamed(evs, ContactsSubmit)
    ensures (CountNamed(evs, OrderChange) == 0 && CountNamed(evs, OrderSubmit) == 0
             && CountNamed(evs, ContactsSubmit) == 0) ==> r == (s, [])
    decreases |evs|
  {
    if |evs| == 0 then (s, [])
    else
      var h := Handle(s, evs[0]);
      var rest := Dispatch(h.0, evs[1..]);
      assert CountNamed(evs, ContactsSubmit)
        == (if evs[0].name == ContactsSubmit then 1 else 0) + CountNamed(evs[1..], ContactsSubmit);
      assert |evs| == 1 ==> rest == (h.0, []) && h.1 + rest.1 == h.1;
      (rest.0, h.1 + rest.1)
  }

  /** Clicking submit on the contact form over a complete draft posts the order
      once when the button is enabled and not at all while it is disabled. */
  lemma ContactsSubmitPosts(s: State, f: OrderContacts.ContactsForm)
    requires s.order.email != "" && s.order.phone != ""
    ensures |Dispatch(s, OrderContacts.Submit(f)).1| == (if f.valid then 1 else 0)
  {
    var evs := OrderContacts.Submit(f);
    if f.valid {
      assert evs[0].name == ContactsSubmit;
      assert evs[1..] == [];
    }
  }

  /** An input's two events reaching the page: the `order:change` handler stores
      the value; the base class's `order.<name>:change` has no handler. */
  lemma InputEventsReachStore(s: State, f: OrderField, v: string)
    ensures var n := FieldName(f);
      Dispatch(s, [Event(OrderChange, FieldChange(n, v)), Event("order." + n + ":change", FieldChange(n, v))])
        == (OnOrderChange(s, f, v).state, [])
  {
    var n := FieldName(f);
    var evs := [Event(OrderChange, FieldChange(n, v)), Event("order." + n + ":change", FieldChange(n, v))];
    var s1 := OnOrderChange(s, f, v).state;
    assert Dispatch(s, evs) == Dispatch(s1, evs[1..]);
    assert evs[1..][1..] == [];
  }

  /** Typing into a contact input reaches the store: the draft field takes the
      raw value, as the `order:change` handler alone sets it, and nothing is
      posted. */
  lemma TypingContactsReachesStore(s: State, f: OrderContacts.ContactsForm, v: string)
    ensures Dispatch(s, OrderContacts.InputEmail(f, v).events) == (OnOrderChange(s, Email, v).state, [])
    ensures Dispatch(s, OrderContacts.InputPhone(f, v).events) == (OnOrderChange(s, Phone, v).state, [])
  {
    InputEventsReachStore(s, Email, v);
    InputEventsReachStore(s, Phone, v);
  }

  /** Typing an address or clicking a payment button reaches the store: the
      draft field takes the raw value or the button's name, and nothing is
      posted. */
  lemma PaymentInputReachesStore(s: State, f: OrderPayment.PaymentForm, v: string, b: OrderPayment.Button)
    ensures Dispatch(s, OrderPayment.InputAddress(f, v).events) == (OnOrderChange(s, Address, v).state, [])
    ensures Dispatch(s, OrderPayment.ClickPayment(f, b).events)
      == (OnOrderChange(s, Payment, OrderPayment.ButtonName(b)).state, [])
  {
    InputEventsReachStore(s, Address, v);
    var c := OrderPayment.ClickPayment(f, b).events;
    assert c[1..] == [];
  }

  /** Dispatching is feeding the events to `Handle` one at a time. */
  lemma {:induction false} DispatchIsFold(s: State, evs: seq<Event>)
    ensures Dispatch(s, evs) == Fold(Handle, s, evs)
    decreases |evs|
  {
    if |evs| > 0 {
      DispatchIsFold(Handle(s, evs[0]).0, evs[1..]);
    }
  }

  /** Events are handled one after another: dispatching `a + b` dispatches `a`,
      then `b` from the state `a` left, and the posts come in that order. */
  lemma DispatchAppend(s: State, a: seq<Event>, b: seq<Event>)
    ensures var ra := Dispatch(s, a);
      var rb := Dispatch(ra.0, b);
      Dispatch(s, a + b) == (rb.0, ra.1 + rb.1)
  {
    DispatchIsFold(s, a + b);
    DispatchIsFold(s, a);
    DispatchIsFold(Dispatch(s, a).0, b);
    FoldAppend(Handle, s, a, b);
  }
}

=== FILE: events.dfy ===
/** Named notifications. The event bus itself is not modelled: an operation
    returns the list of events it emits, in emission order. */
module Events {
  import opened Types

  /** What travels with an event. */
  datatype Payload =
    | NoPayload
    | ProductPayload(product: Product)
    | ErrorsPayload(errors: map<string, string>)
    | OrderPayload(order: Order)
    | FieldChange(field: string, value: string)

  datatype Event = Event(name: string, payload: Payload)

  // Change events emitted by the application state.
  const CatalogChanged := "catalog:changed"
  const PreviewChanged := "preview:changed"
  const BasketChanged := "basket:changed"
  const FormErrorsChanged := "formErrors:changed"
  const OrderChanged := "order:changed"

  // Intent events emitted by the checkout forms.
  const OrderChange := "order:change"
  const OrderSubmit := "order:submit"
  const ContactsSubmit := "contacts:submit"

  /** The number of events in `evs` named `name`. */
  function CountNamed(evs: seq<Event>, name: string): (n: nat)
    ensures n <= |evs|
    ensures n == 0 <==> forall i :: 0 <= i < |evs| ==> evs[i].name != name
  {
    if |evs| == 0 then 0
    else (if evs[0].name == name then 1 else 0) + CountNamed(evs[1..], name)
  }

  lemma {:induction false} CountNamedAppend(a: seq<Event>, b: seq<Event>, name: string)
    ensures CountNamed(a + b, name) == CountNamed(a, name) + CountNamed(b, name)
  {
    if |a| > 0 {
      assert (a + b)[1..] == a[1..] + b;
      CountNamedAppend(a[1..], b, name);
    } else {
      assert a + b == b;
    }
  }

  /** Feeds events one at a time to `step`, threading its state and collecting
      its outputs in order. */
  function Fold<S, O>(step: (S, Event) -> (S, seq<O>), s: S, evs: seq<Event>): (S, seq<O>)
    decreases |evs|
  {
    if |evs| == 0 then (s, [])
    else
      var h := step(s, evs[0]);
      var rest := Fold(step, h.0, evs[1..]);
      (rest.0, h.1 + rest.1)
  }

  /** Folding `a + b` folds `a`, then `b` from the state `a` left; the outputs
      come in that order. */
  lemma {:induction false} FoldAppend<S, O>(step: (S, Event) -> (S, seq<O>), s: S, a: seq<Event>, b: seq<Event>)
    ensures var ra := Fold(step, s, a);
      var rb := Fold(step, ra.0, b);
      Fold(step, s, a + b) == (rb.0, ra.1 + rb.1)
    decreases |a|
  {
    if |a| == 0 {
      assert a + b == b;
      var rb := Fold(step, s, b);
      assert [] + rb.1 == rb.1;
    } else {
      assert (a + b)[0] == a[0];
      assert (a + b)[1..] == a[1..] + b;
      var h := step(s, a[0]);
      var tail := Fold(step, h.0, a[1..]);
      var rb := Fold(step, tail.0, b);
      FoldAppend(step, h.0, a[1..], b);
      assert h.1 + (tail.1 + rb.1) == (h.1 + tail.1) + rb.1;
    }
  }
}

=== FILE: form.dfy ===
/** What the two checkout forms share with their base class. */
module Form {
  import opened Types
  import opened Events

  /** A form after handling one user action, with the intent events it emitted. */
  datatype FormStep<F> = FormStep(form: F, events: seq<Event>)

  /** Reading `this.valid`. The base class declares `valid` with a setter and
      no getter, so a read yields `undefined` (`None`) whatever was last set. */
  function ReadValid(): Option<bool>
  {
    None
  }

  /** JavaScript truthiness of a possibly undefined boolean. */
  predicate Truthy(v: Option<bool>)
  {
    v == Some(true)
  }

  /** The input listener the base class registers on the form element. It runs
      after the input's own listener, once the event has bubbled up, and emits
      `order.<input name>:change` with the input's name and value. */
  function BaseInput(field: string, value: string): (evs: seq<Event>)
    ensures |evs| == 1
    ensures evs[0].name == "order." + field + ":change"
    ensures evs[0].payload == FieldChange(field, value)
  {
    [Event("order." + field + ":change", FieldChange(field, value))]
  }

  /** The submit listener the base class registers on every form: it emits
      `<form name>:submit` without looking at validity. */
  function BaseSubmit(formName: string): (evs: seq<Event>)
    ensures CountNamed(evs, formName + ":submit") == 1
  {
    [Event(formName + ":submit", NoPayload)]
  }

  /** Clicking the submit button. A disabled button raises no submit event; an
      enabled one runs the base listener, then the form's own, which emits `own`.
      The button is enabled exactly when `valid` was last set to true. The page's
      `formErrors:changed` handler also writes the payment form's button, but
      every input and click listener runs `checkValid` after that write, so the
      setter has the last word once an event is handled. */
  function ClickSubmit(formName: string, enabled: bool, own: seq<Event>): (evs: seq<Event>)
    ensures !enabled ==> evs == []
    ensures enabled ==> CountNamed(evs, formName + ":submit") == 1 + CountNamed(own, formName + ":submit")
    ensures enabled ==> |evs| == 1 + |own| && evs[..1] == BaseSubmit(formName) && evs[1..] == own
  {
    if enabled then
      CountNamedAppend(BaseSubmit(formName), own, formName + ":submit");
      BaseSubmit(formName) + own
    else []
  }
}

=== FILE: ordercontacts.dfy ===
/** The contact step of checkout: e-mail and phone inputs, one error line and a
    submit button enabled only when both inputs are acceptable. The input
    elements are abstracted to the strings they hold. */
module OrderContacts {
  import opened Types
  import opened Events
  import opened Text
  import opened Form

  /** The raw input values, the error line shown, and the value last given to
      the `valid` setter, which is whether the submit button is enabled. */
  datatype ContactsForm = ContactsForm(email: string, phone: string, errors: string, valid: bool)

  /** The phone holds between 10 and 15 decimal digits, whatever else it holds. */
  predicate PhoneAccepted(phone: string)
  {
    10 <= |Digits(phone)| <= 15
  }

  /** Recomputes the error line and validity from the trimmed inputs; a phone
      problem replaces any e-mail problem. */
  function CheckValid(f: ContactsForm): (r: ContactsForm)
    ensures r.email == f.email && r.phone == f.phone
    ensures r.valid <==> r.errors == ""
    ensures r.valid <==> EmailPattern(Trim(f.email)) && PhoneAccepted(f.phone)
    ensures AllSpace(f.phone) ==> r.errors == MsgNoPhone
    ensures !AllSpace(f.phone) && !PhoneAccepted(f.phone) ==> r.errors == MsgBadPhone
    ensures PhoneAccepted(f.phone) && AllSpace(f.email) ==> r.errors == MsgNoEmail
    ensures PhoneAccepted(f.phone) && !AllSpace(f.email) && !EmailPattern(Trim(f.email)) ==>
              r.errors == MsgBadEmail
  {
    var email := Trim(f.email);
    var phone := Trim(f.phone);
    var emailError := if email == "" then MsgNoEmail else if !IsEmail(email) then MsgBadEmail else "";
    var phoneValid := 10 <= |Digits(phone)| <= 15;
    var error := if phone == "" then MsgNoPhone else if !phoneValid then MsgBadPhone else emailError;
    IsEmailMatchesPattern(email);
    DigitsTrim(f.phone);
    f.(errors := error, valid := error == "")
  }

  /** The `email` setter. */
  function SetEmail(f: ContactsForm, v: string): (r: ContactsForm)
    ensures r.email == v && r.phone == f.phone
    ensures r.valid <==> EmailPattern(Trim(v)) && PhoneAccepted(f.phone)
  {
    CheckValid(f.(email := v))
  }

  /** The `phone` setter. */
  function SetPhone(f: ContactsForm, v: string): (r: ContactsForm)
    ensures r.phone == v && r.email == f.email
    ensures r.valid <==> EmailPattern(Trim(f.email)) && PhoneAccepted(v)
  {
    CheckValid(f.(phone := v))
  }

  /** Typing into the e-mail input: the input's listener reports the raw value
      and re-checks; then the base class's form listener reports it again. */
  function InputEmail(f: ContactsForm, v: string): (r: FormStep<ContactsForm>)
    ensures r.events == [Event(OrderChange, FieldChange(FieldName(Email), v)),
                         Event("order.email:change", FieldChange(FieldName(Email), v))]
    ensures r.form == SetEmail(f, v)
  {
    assert "order." + "email" + ":change" == "order.email:change";
    FormStep(CheckValid(f.(email := v)), [Event(OrderChange, FieldChange("email", v))] + BaseInput("email", v))
  }

  /** Typing into the phone input: the input's listener reports the raw value
      and re-checks; then the base class's form listener reports it again. */
  function InputPhone(f: ContactsForm, v: string): (r: FormStep<ContactsForm>)
    ensures r.events == [Event(OrderChange, FieldChange(FieldName(Phone), v)),
                         Event("order.phone:change", FieldChange(FieldName(Phone), v))]
    ensures r.form == SetPhone(f, v)
  {
    assert "order." + "phone" + ":change" == "order.phone:change";
    FormStep(CheckValid(f.(phone := v)), [Event(OrderChange, FieldChange("phone", v))] + BaseInput("phone", v))
  }

  /** The form's own submit listener. Its guard reads `this.valid`, which is
      always undefined, so it never emits. */
  function OwnSubmit(): (evs: seq<Event>)
    ensures evs == []
  {
    if Truthy(ReadValid()) then [Event(ContactsSubmit, NoPayload)] else []
  }

  /** Clicking the submit button of the form named "contacts": one
      `contacts:submit`, from the base listener, when the button is enabled,
      and nothing while it is disabled. */
  function Submit(f: ContactsForm): (evs: seq<Event>)
    ensures CountNamed(evs, ContactsSubmit) == (if f.valid then 1 else 0)
    ensures |evs| == (if f.valid then 1 else 0)
  {
    assert "contacts" + ":submit" == ContactsSubmit;
    ClickSubmit("contacts", f.valid, OwnSubmit())
  }

  /** Empties both inputs; the form is then invalid and reports the missing phone. */
  function CleanFieldValues(f: ContactsForm): (r: ContactsForm)
    ensures r.email == "" && r.phone == ""
    ensures !r.valid && r.errors == MsgNoPhone
  {
    CheckValid(f.(email := "", phone := ""))
  }

  /** Once the phone is unacceptable, the e-mail has no influence on the error line. */
  lemma PhoneErrorOverridesEmail(f: ContactsForm, e1: string, e2: string)
    requires !PhoneAccepted(f.phone)
    ensures CheckValid(f.(email := e1)).errors == CheckValid(f.(email := e2)).errors
    ensures !CheckValid(f.(email := e1)).valid
  {
  }

  /** A concrete accepted pair: surrounding spaces are trimmed, the phone's
      leading `+` is ignored. */
  lemma AcceptsExample()
    ensures CheckValid(ContactsForm(" a@b.ru ", "+79001234567", "", false)).valid
  {
    ExampleEmail();
    ExamplePhone();
  }

  lemma ExampleEmail()
    ensures EmailPattern(Trim(" a@b.ru "))
  {
    ExampleTrim();
    var e := "a@b.ru";
    assert e[1] == '@' && e[3] == '.';
    assert e[..1] == "a" && e[2..3] == "b" && e[4..] == "ru";
    assert Plain("a") && Plain("b") && Plain("ru");
  }

  lemma ExampleTrim()
    ensures Trim(" a@b.ru ") == "a@b.ru"
  {
    var s := " a@b.ru ";
    assert LeadingSpaces(s) == 1;
    assert TrailingSpaces(s[1..]) == 1;
  }

  lemma ExamplePhone()
    ensures PhoneAccepted("+79001234567")
  {
    assert "+79001234567" == "+" + "79001234567";
    DigitsAppend("+", "79001234567");
    DigitsOfDigits("79001234567");
  }
}

=== FILE: orderpayment.dfy ===
/** The payment step of checkout: two payment buttons of which at most one is
    highlighted, an address input, and a submit button enabled only when an
    address is typed and a payment is chosen. DOM elements are abstracted to
    the address string and one "active" flag per button. */
module OrderPayment {
  import opened Types
  import opened Events
  import opened Text
  import opened Form

  datatype Button = CardButton | CashButton

  /** The button's `name` attribute, which is what the form reports as the payment. */
  function ButtonName(b: Button): (name: string)
    ensures name == "card" || name == "cash"
  {
    match b
    case CardButton => "card"
    case CashButton => "cash"
  }

  function Other(b: Button): Button
  {
    match b
    case CardButton => CashButton
    case CashButton => CardButton
  }

  /** The address typed, whether each button carries the active class, and the
      value last given to the `valid` setter, which is whether the submit button
      is enabled once each event is handled (see `Form.ClickSubmit` for the
      page's other write to that button). */
  datatype PaymentForm = PaymentForm(address: string, cardActive: bool, cashActive: bool, valid: bool)

  predicate Active(f: PaymentForm, b: Button)
  {
    match b
    case CardButton => f.cardActive
    case CashButton => f.cashActive
  }

  /** What the buttons show: no choice, or exactly one button. */
  datatype Selection = NoSelection | Selected(button: Button)

  predicate AtMostOneActive(f: PaymentForm)
  {
    !(f.cardActive && f.cashActive)
  }

  function SelectionOf(f: PaymentForm): (s: Selection)
    requires AtMostOneActive(f)
    ensures s == NoSelection <==> !Active(f, CardButton) && !Active(f, CashButton)
    ensures forall b :: s == Selected(b) <==> Active(f, b)
  {
    if f.cardActive then Selected(CardButton)
    else if f.cashActive then Selected(CashButton)
    else NoSelection
  }

  /** Deactivates both buttons and activates `b`. */
  function TogglePayment(f: PaymentForm, b: Button): (r: PaymentForm)
    ensures Active(r, b) && !Active(r, Other(b))
    ensures SelectionOf(r) == Selected(b)
    ensures r.address == f.address && r.valid == f.valid
  {
    var cleared := ResetPayment(f);
    match b
    case CardButton => cleared.(cardActive := true)
    case CashButton => cleared.(cashActive := true)
  }

  /** Deactivates both buttons. */
  function ResetPayment(f: PaymentForm): (r: PaymentForm)
    ensures !Active(r, CardButton) && !Active(r, CashButton)
    ensures SelectionOf(r) == NoSelection
    ensures r.address == f.address && r.valid == f.valid
  {
    f.(cardActive := false, cashActive := false)
  }

  /** An address that is not all whitespace, and a chosen payment. */
  predicate Ready(f: PaymentForm)
  {
    !AllSpace(f.address) && (Active(f, CardButton) || Active(f, CashButton))
  }

  function CheckValid(f: PaymentForm): (r: PaymentForm)
    ensures r.valid <==> !AllSpace(f.address) && (Active(f, CardButton) || Active(f, CashButton))
    ensures r.(valid := f.valid) == f
  {
    var addressFilled := |Trim(f.address)| > 0;
    var paymentSelected := f.cardActive || f.cashActive;
    f.(valid := addressFilled && paymentSelected)
  }

  /** The `address` setter. */
  function SetAddress(f: PaymentForm, v: string): (r: PaymentForm)
    ensures r.address == v
    ensures r.cardActive == f.cardActive && r.cashActive == f.cashActive
    ensures r.valid <==> !AllSpace(v) && (f.cardActive || f.cashActive)
  {
    CheckValid(f.(address := v))
  }

  /** Typing into the address input: the input's listener reports the raw value
      and re-checks; then the base class's form listener reports it again. */
  function InputAddress(f: PaymentForm, v: string): (r: FormStep<PaymentForm>)
    ensures r.events == [Event(OrderChange, FieldChange(FieldName(Address), v)),
                         Event("order.address:change", FieldChange(FieldName(Address), v))]
    ensures r.form == SetAddress(f, v)
  {
    assert "order." + "address" + ":change" == "order.address:change";
    FormStep(CheckValid(f.(address := v)), [Event(OrderChange, FieldChange("address", v))] + BaseInput("address", v))
  }

  /** Clicking a payment button: highlights it alone, reports its name as the
      payment, then re-checks. */
  function ClickPayment(f: PaymentForm, b: Button): (r: FormStep<PaymentForm>)
    ensures r.events == [Event(OrderChange, FieldChange(FieldName(Payment), ButtonName(b)))]
    ensures AtMostOneActive(r.form) && SelectionOf(r.form) == Selected(b)
    ensures r.form.address == f.address
    ensures r.form.valid <==> !AllSpace(f.address)
  {
    var toggled := TogglePayment(f, b);
    FormStep(CheckValid(toggled), [Event(OrderChange, FieldChange("payment", ButtonName(b)))])
  }

  /** The form's own submit listener. Its guard reads `this.valid`, which is
      always undefined, so it never emits. */
  function OwnSubmit(): (evs: seq<Event>)
    ensures evs == []
  {
    if Truthy(ReadValid()) then [Event(OrderSubmit, NoPayload)] else []
  }

  /** Clicking the submit button of the form named "order": one `order:submit`,
      from the base listener, when the button is enabled, and nothing while it
      is disabled. */
  function Submit(f: PaymentForm): (evs: seq<Event>)
    ensures CountNamed(evs, OrderSubmit) == (if f.valid then 1 else 0)
    ensures |evs| == (if f.valid then 1 else 0)
  {
    assert "order" + ":submit" == OrderSubmit;
    ClickSubmit("order", f.valid, OwnSubmit())
  }

  /** Empties the address and drops the selection; the form is then invalid. */
  function CleanFieldValues(f: PaymentForm): (r: PaymentForm)
    ensures r.address == "" && AtMostOneActive(r) && SelectionOf(r) == NoSelection && !r.valid
  {
    CheckValid(ResetPayment(f.(address := "")))
  }

  /** The form as first rendered: nothing typed, nothing chosen, submit disabled. */
  const Initial := PaymentForm("", false, false, false)

  /** A user action on the payment form. */
  datatype Action = TypeAddress(value: string) | Click(button: Button) | Clean

  function Apply(f: PaymentForm, a: Action): PaymentForm
  {
    match a
    case TypeAddress(v) => InputAddress(f, v).form
    case Click(b) => ClickPayment(f, b).form
    case Clean => CleanFieldValues(f)
  }

  /** The invariant of the rendered form: at most one highlighted button, and
      validity that agrees with the address and the selection. */
  predicate Consistent(f: PaymentForm)
  {
    AtMostOneActive(f) && (f.valid <==> Ready(f))
  }

  function Run(f: PaymentForm, actions: seq<Action>): PaymentForm
    decreases |actions|
  {
    if |actions| == 0 then f else Run(Apply(f, actions[0]), actions[1..])
  }

  /** Every action keeps the invariant. */
  lemma ApplyKeepsConsistent(f: PaymentForm, a: Action)
    requires Consistent(f)
    ensures Consistent(Apply(f, a))
  {
  }

  /** From the initial form, every sequence of actions keeps the invariant, so
      submit fires only with a non-blank address and exactly one chosen payment. */
  lemma {:induction false} RunKeepsConsistent(f: PaymentForm, actions: seq<Action>)
    requires Consistent(f)
    decreases |actions|
    ensures Consistent(Run(f, actions))
    ensures Submit(Run(f, actions)) != [] ==>
              !AllSpace(Run(f, actions).address) && SelectionOf(Run(f, actions)) != NoSelection
  {
    if |actions| > 0 {
      ApplyKeepsConsistent(f, actions[0]);
      RunKeepsConsistent(Apply(f, actions[0]), actions[1..]);
    }
  }

  lemma InitialConsistent()
    ensures Consistent(Initial)
  {
  }
}

=== FILE: text.dfy ===
/** The string primitives the checkout forms rely on: JavaScript's `trim`,
    the `\s` and `\D` regular-expression classes, and the e-mail pattern
    `^[^\s@]+@[^\s@]+\.[^\s@]+$`. */
module Text {

  /** ECMAScript WhiteSpace and LineTerminator code points (sections 12.2 and
      12.3 of ECMA-262): the set `String.prototype.trim` strips and `\s` matches. */
  predicate IsSpace(c: char)
  {
    || c == '\t' || c == '\n' || c == '\U{000B}' || c == '\U{000C}' || c == '\r'
    || c == ' ' || c == '\U{00A0}' || c == '\U{1680}'
    || ('\U{2000}' <= c <= '\U{200A}')
    || c == '\U{2028}' || c == '\U{2029}' || c == '\U{202F}' || c == '\U{205F}'
    || c == '\U{3000}' || c == '\U{FEFF}'
  }

  /** The regular-expression class `\d`: ASCII decimal digits only. */
  predicate IsDigit(c: char)
  {
    '0' <= c <= '9'
  }

  predicate AllSpace(s: string)
  {
    forall i :: 0 <= i < |s| ==> IsSpace(s[i])
  }

  /** The number of whitespace characters at the start of `s`. */
  function LeadingSpaces(s: string): (n: nat)
    ensures n <= |s|
    ensures AllSpace(s[..n])
    ensures n < |s| ==> !IsSpace(s[n])
  {
    if |s| == 0 || !IsSpace(s[0]) then 0
    else
      var n := LeadingSpaces(s[1..]);
      assert s[..n + 1] == [s[0]] + s[1..][..n];
      n + 1
  }

  /** The number of whitespace characters at the end of `s`. */
  function TrailingSpaces(s: string): (n: nat)
    ensures n <= |s|
    ensures AllSpace(s[|s| - n..])
    ensures n < |s| ==> !IsSpace(s[|s| - n - 1])
  {
    if |s| == 0 || !IsSpace(s[|s| - 1]) then 0
    else
      var p := s[..|s| - 1];
      var n := TrailingSpaces(p);
      assert s[|s| - (n + 1)..] == p[|p| - n..] + [s[|s| - 1]];
      n + 1
  }

  /** `s.trim()`: the longest infix of `s` that neither starts nor ends with whitespace. */
  function Trim(s: string): (r: string)
    ensures |r| <= |s|
    ensures LeadingSpaces(s) + |r| <= |s|
    ensures r == s[LeadingSpaces(s)..LeadingSpaces(s) + |r|]
    ensures AllSpace(s[LeadingSpaces(s) + |r|..])
    ensures r == [] <==> AllSpace(s)
    ensures r != [] ==> !IsSpace(r[0]) && !IsSpace(r[|r| - 1])
  {
    var a := LeadingSpaces(s);
    var t := s[a..];
    var r := t[..|t| - TrailingSpaces(t)];
    assert t[|t| - TrailingSpaces(t)..] == s[a + |r|..];
    assert r == [] ==> s[..a] == s;
    r
  }

  /** Trimming a trimmed string changes nothing. */
  lemma TrimIdempotent(s: string)
    ensures Trim(Trim(s)) == Trim(s)
  {
    var r := Trim(s);
    if r != [] {
      assert LeadingSpaces(r) == 0;
    }
  }

  /** `s.replace(/\D/g, '')`: the decimal digits of `s`, in order. */
  function Digits(s: string): (d: string)
    ensures |d| <= |s|
    ensures forall i :: 0 <= i < |d| ==> IsDigit(d[i])
  {
    if |s| == 0 then []
    else Digits(s[..|s| - 1]) + (if IsDigit(s[|s| - 1]) then [s[|s| - 1]] else [])
  }

  lemma {:induction false} DigitsOfDigits(s: string)
    requires forall i :: 0 <= i < |s| ==> IsDigit(s[i])
    ensures Digits(s) == s
  {
    if |s| > 0 {
      DigitsOfDigits(s[..|s| - 1]);
    }
  }

  /** The positions of `s` that hold a decimal digit. */
  ghost function DigitPositions(s: string): set<int>
  {
    set i | 0 <= i < |s| && IsDigit(s[i])
  }

  /** The length of `Digits(s)` is the number of positions of `s` holding a digit. */
  lemma {:induction false} DigitsCount(s: string)
    ensures |Digits(s)| == |DigitPositions(s)|
  {
    if |s| > 0 {
      var p := s[..|s| - 1];
      DigitsCount(p);
      var last := if IsDigit(s[|s| - 1]) then {|s| - 1} else {};
      assert DigitPositions(s) == DigitPositions(p) + last;
      assert DigitPositions(p) !! last;
    }
  }

  lemma {:induction false} DigitsAppend(a: string, b: string)
    ensures Digits(a + b) == Digits(a) + Digits(b)
  {
    if |b| > 0 {
      var b' := b[..|b| - 1];
      assert (a + b)[..|a + b| - 1] == a + b';
      DigitsAppend(a, b');
    } else {
      assert a + b == a;
    }
  }

  lemma {:induction false} DigitsOfSpace(s: string)
    requires AllSpace(s)
    ensures Digits(s) == []
  {
    if |s| > 0 {
      DigitsOfSpace(s[..|s| - 1]);
    }
  }

  /** Trimming never removes a digit. */
  lemma DigitsTrim(s: string)
    ensures Digits(Trim(s)) == Digits(s)
  {
    var a := LeadingSpaces(s);
    var r := Trim(s);
    SplitAt(s, a, a + |r|);
    DigitsAroundSpace(s[..a], r, s[a + |r|..]);
  }

  lemma SplitAt(s: string, i: nat, j: nat)
    requires i <= j <= |s|
    ensures s == s[..i] + s[i..j] + s[j..]
  {
  }

  lemma DigitsAroundSpace(pre: string, mid: string, post: string)
    requires AllSpace(pre) && AllSpace(post)
    ensures Digits(pre + mid + post) == Digits(mid)
  {
    DigitsAppend(pre + mid, post);
    DigitsAppend(pre, mid);
    DigitsOfSpace(pre);
    DigitsOfSpace(post);
  }

  /** The class `[^\s@]`, repeated: no `@` and no whitespace. */
  predicate Plain(s: string)
  {
    forall i :: 0 <= i < |s| ==> s[i] != '@' && !IsSpace(s[i])
  }

  /** The regular expression `^[^\s@]+@[^\s@]+\.[^\s@]+$`, read as the split of
      `s` into three non-empty plain runs around an `@` and a later `.`. */
  ghost predicate EmailPattern(s: string)
  {
    exists i, k ::
      && 0 < i && i + 1 < k && k + 1 < |s|
      && s[i] == '@' && s[k] == '.'
      && Plain(s[..i]) && Plain(s[i + 1..k]) && Plain(s[k + 1..])
  }

  /** The first position of `c` in `s`, or `|s|` when it does not occur. */
  function FirstIndex(s: string, c: char): (i: nat)
    ensures i <= |s|
    ensures forall j :: 0 <= j < i ==> s[j] != c
    ensures i < |s| ==> s[i] == c
  {
    if |s| == 0 then 0
    else if s[0] == c then 0
    else 1 + FirstIndex(s[1..], c)
  }

  /** A scanning e-mail check: a non-empty plain local part up to the first
      `@`, then a domain accepted by `IsDomain`. */
  predicate IsEmail(s: string)
  {
    var i := FirstIndex(s, '@');
    0 < i < |s| && Plain(s[..i]) && IsDomain(s[i + 1..])
  }

  /** A plain domain holding a `.` that is neither its first nor its last character. */
  predicate IsDomain(d: string)
  {
    Plain(d) && |d| >= 3 && '.' in d[1..|d| - 1]
  }

  /** Every string the scanning check accepts matches the regular expression. */
  lemma IsEmailSound(s: string)
    requires IsEmail(s)
    ensures EmailPattern(s)
  {
    var i := FirstIndex(s, '@');
    var d := s[i + 1..];
    var k' :| 0 <= k' < |d[1..|d| - 1]| && d[1..|d| - 1][k'] == '.';
    var k := i + 2 + k';
    assert s[k] == '.';
    assert s[i + 1..k] == d[..k' + 1];
    assert s[k + 1..] == d[k' + 2..];
  }

  /** A `.` between two plain runs leaves a plain run. */
  lemma PlainAroundDot(s: string, lo: nat, k: nat)
    requires lo <= k < |s| && s[k] == '.'
    requires Plain(s[lo..k]) && Plain(s[k + 1..])
    ensures Plain(s[lo..])
  {
    forall j | lo <= j < |s| ensures s[j] != '@' && !IsSpace(s[j]) {
      if j < k {
        assert s[j] == s[lo..k][j - lo];
      } else if j > k {
        assert s[j] == s[k + 1..][j - k - 1];
      }
    }
  }

  lemma FirstIndexIs(s: string, c: char, i: nat)
    requires i < |s| && s[i] == c
    requires forall j :: 0 <= j < i ==> s[j] != c
    ensures FirstIndex(s, c) == i
  {
  }

  /** Every string the regular expression matches passes the scanning check. */
  lemma IsEmailComplete(s: string)
    requires EmailPattern(s)
    ensures IsEmail(s)
  {
    var i, k :|
      && 0 < i && i + 1 < k && k + 1 < |s|
      && s[i] == '@' && s[k] == '.'
      && Plain(s[..i]) && Plain(s[i + 1..k]) && Plain(s[k + 1..]);
    forall j | 0 <= j < i ensures s[j] != '@' {
      assert s[j] == s[..i][j];
    }
    FirstIndexIs(s, '@', i);
    var d := s[i + 1..];
    PlainAroundDot(s, i + 1, k);
    var inner := d[1..|d| - 1];
    assert inner[k - i - 2] == '.';
    assert IsDomain(d);
    EmailFromParts(s, i);
  }

  lemma EmailFromParts(s: string, i: nat)
    requires 0 < i < |s| && FirstIndex(s, '@') == i
    requires Plain(s[..i]) && IsDomain(s[i + 1..])
    ensures IsEmail(s)
  {
  }

  /** The scanning check accepts exactly the strings the regular expression matches. */
  lemma IsEmailMatchesPattern(s: string)
    ensures IsEmail(s) <==> EmailPattern(s)
  {
    if IsEmail(s) { IsEmailSound(s); }
    if EmailPattern(s) { IsEmailComplete(s); }
  }
}

=== FILE: types.dfy ===
/** Records of the storefront: catalog products, basket lines and the order draft. */
module Types {

  /** A value that may be absent; stands for TypeScript's `T | null`. */
  datatype Option<+T> = None | Some(value: T)

  /** A catalog product. A `None` price marks an item that cannot be bought. */
  datatype Product = Product(
    id: string,
    description: string,
    image: string,
    title: string,
    category: string,
    price: Option<int>)

  /** One line of the basket: a denormalised copy of a product's id, title and price. */
  datatype BasketLine = BasketLine(id: string, title: string, price: int)

  /** The order draft, and also the snapshot sent to the backend. */
  datatype Order = Order(
    total: int,
    items: seq<string>,
    email: string,
    phone: string,
    address: string,
    payment: string)

  /** The four string fields of the draft that the checkout forms may set. */
  datatype OrderField = Email | Phone | Address | Payment

  /** The property name of a field, as used for form-error keys and `order:change` payloads. */
  function FieldName(f: OrderField): (name: string)
    ensures |name| > 0
  {
    match f
    case Email => "email"
    case Phone => "phone"
    case Address => "address"
    case Payment => "payment"
  }

  /** The draft field an input or event names, if it is one of the four. */
  function FieldOf(name: string): (r: Option<OrderField>)
    ensures r.Some? ==> FieldName(r.value) == name
    ensures r.None? <==> forall f: OrderField :: FieldName(f) != name
  {
    if name == "email" then Some(Email)
    else if name == "phone" then Some(Phone)
    else if name == "address" then Some(Address)
    else if name == "payment" then Some(Payment)
    else None
  }

  /** Reads a string field of an order. */
  function FieldValue(o: Order, f: OrderField): string
  {
    match f
    case Email => o.email
    case Phone => o.phone
    case Address => o.address
    case Payment => o.payment
  }

  /** Writes a string field of an order; models `order[field] = value`. */
  function WithField(o: Order, f: OrderField, v: string): (r: Order)
    ensures FieldValue(r, f) == v
    ensures forall g :: g != f ==> FieldValue(r, g) == FieldValue(o, g)
    ensures r.total == o.total && r.items == o.items
  {
    match f
    case Email => o.(email := v)
    case Phone => o.(phone := v)
    case Address => o.(address := v)
    case Payment => o.(payment := v)
  }

  /** `item.price || 0`: a missing price counts as zero. */
  function PriceOrZero(p: Option<int>): int
  {
    match p
    case None => 0
    case Some(v) => v
  }

  // Error messages shown to the user, shared by the store and the contact form.
  const MsgNoPayment := "Укажите способ оплаты"
  const MsgNoAddress := "Укажите адрес доставки"
  const MsgNoEmail := "Укажите email"
  const MsgBadEmail := "Некорректный email"
  const MsgNoPhone := "Укажите телефон"
  const MsgBadPhone := "Некорректный телефон"
}
